=== FILE: README.md ===
# Trezor master-key wrapper — a Dafny model

This project models the decision logic of a small Go wrapper around a Trezor
One hardware wallet. The wrapper encrypts and decrypts a master key with the
device's SLIP-0011 CipherKeyValue operation. The cryptography runs on the
device. The host-side logic modelled here is:

- **Interactive call resolution** (`call`): send a request; while the device
  replies with a PIN, passphrase, word or button request, answer it (asking
  the pinentry agent for a secret except for the button) and send the matching
  acknowledgement; return the first other reply unchanged.
- **Decrypt input preparation**: hex-encode the ciphertext in lower case and
  append `"00"` until the length is a multiple of 32 characters.
- **Reply classification** in `EncryptKey` and `DecryptKey`: `Success` or
  `CipheredKeyValue` yields the payload; `Failure` yields the device's
  message; any other kind is an unexpected-response error. That error quotes
  the reply in encrypt and the input ciphertext in decrypt.
- **Connection health**: `Ping`, `CheckTrezorConnection` and the Linux
  `Reconnect` loop. The loop enumerates devices, binds the one with vendor
  21324, product 1, interface 0, and probes it with `"ping"`. If nothing
  matches, it asks the user to Retry or Unmount.

The device, the pinentry agent and USB enumeration are scripted inputs:

- `replies` holds the device's replies, one per message sent.
- `answers` holds the agent's `GetPin` results, each a secret plus an optional error.
- `rounds` holds one enumeration per reconnect round.
- `confirms` holds the user's Retry/Unmount choices.
- `pong` and `probe` are the replies to the cheap ping and to the post-bind probe. `None` is a device that never answers that probe.
- `hidReportOk` is the result of the HID report.

Running out of a script stands for the device, the user or the loop never
finishing. The source has no step cap, and the scripts are the only thing that
bounds a run in the model. `log.Fatal` and `log.Panic` are terminal outcomes
of their own, never returns. Go strings and byte slices are both
`seq<Byte>`.

Modules: `Wire` (bytes, message kinds, messages), `Agent` (prompts and agent
answers), `CallEngine` (`call`), `HexPad` (decrypt input), `Session` (`Ping`,
`CheckTrezorConnection`, `Reconnect`), `Cipher` (`CipherKeyValue`,
`EncryptKey`, `DecryptKey`).

Behaviour of the Go code worth noting:

- On an agent error the code sends whatever `GetPin` returned beside the error. No empty secret is substituted.
- Button → passphrase → success consults the agent once: the button request needs no agent (`ButtonPassphraseSuccess`).
- The enumeration callback's `return` leaves only the callback. If the walk visits every device, the last matching device stays bound, not the first.
- A probe reply that is not the echo ends in `log.Fatal` when its kind is `Success`, and in `log.Panic` for every other kind.
- `CheckTrezorConnection` discards `Reconnect`'s error. After the user chooses Unmount, `EncryptKey`/`DecryptKey` still send their request (`GuardDecides`).
- The connection check talks to the device itself. On a bound device whose HID report succeeds, `Ping` sends the `"ping"` probe before the cipher request, and a `Reconnect` that binds a device sends a second probe (`GuardSent`).

## Model

| member | source | states |
|---|---|---|
| Agent.SecretPrompt | trezor.go:44-82 | the PIN, passphrase and word prompts have titles "PIN"/"Passphrase"/"Word", an empty description, cancel label "Cancel", and OK label "OK" exactly for the word request, "Confirm" otherwise |
| Agent.SecretPromptIdentifiesKind | trezor.go:46-77 | distinct request kinds get distinct prompts, and none equals the device-not-found prompt |
| CallEngine.Call | trezor.go:40-87 | the request goes first; every reply answered before the end is interactive; a returned reply is the one after the last acknowledgement and is not interactive; one prompt per secret request answered (plus the unanswered one when the agent is silent); the agent is never asked for more answers than it has |
| CallEngine.CallReturnsFirstTerminal | trezor.go:40-87 | when the agent can answer every secret request before the first non-interactive reply, the call returns that reply unchanged, after one acknowledgement per interactive reply and one prompt per PIN/passphrase/word request |
| CallEngine.CallEndsAtFirstTerminal | trezor.go:84-86 | a returned reply is always the first non-interactive one |
| CallEngine.CallAcknowledges | trezor.go:50-82 | a button request is answered with ButtonAck and no secret; a secret request with the matching ack carrying the agent's next unused secret |
| CallEngine.CallPrompts | trezor.go:44-82 | secret request j is shown the prompt for its kind as agent consultation number SecretCount(replies[..j]); button requests take no consultation |
| CallEngine.CallLogs | trezor.go:50-82 | the log receives the errors of exactly the answers the call used, in the order they were used |
| CallEngine.AgentErrorsOnlyLogged | trezor.go:50-82 | two agent scripts with the same secrets give the same ending, messages sent and prompts: an agent error never aborts or changes the chain |
| CallEngine.PinThenSuccess | trezor.go:44-54 | PIN request then Success: one PIN prompt, PinMatrixAck with the agent's secret (error or not), Success returned |
| CallEngine.ButtonPassphraseSuccess | trezor.go:56-70 | Button, Passphrase, Success: two acks, one passphrase prompt, Success returned |
| HexPad.HexEncode | trezor.go:144 | two characters per byte, characters 2i and 2i+1 being the lower-case high and low nibble of byte i |
| HexPad.HexRoundTrip | trezor.go:144 | decoding the hex encoding gives back the bytes |
| HexPad.HexEncodeDecoded | trezor.go:144 | every string that decodes is the hex encoding of what it decodes to, so decoding and encoding are inverse both ways |
| HexPad.Pad | trezor.go:145-150 | on an even length (the guard before the loop), the result is a multiple of 32, fewer than 32 characters longer, starts with the input and appends only '0' |
| HexPad.DecryptInput | trezor.go:144-150 | the decrypt input is the hex of the ciphertext plus fewer than 32 '0's on a 32-character boundary, with nothing added when the ciphertext fills whole 16-byte blocks |
| HexPad.DecryptInputRecovers | trezor.go:143-150 | the ciphertext is recovered by decoding the first 2·\|ct\| characters of the decrypt input |
| HexPad.PaddingHidesLength | trezor.go:148-152 | a 1-byte and a 16-byte zero ciphertext give the same device input, so the padding alone does not give the length back |
| Session.LastMatch | trezor_linux.go:21-31 | None exactly when no enumerated device has the identity triple (vendor, product and interface, `Session.IsTrezor`, trezor_linux.go:23); otherwise a matching device with no match after it |
| Session.WalkBindsLastMatch | trezor_linux.go:21-31 | `Session.Walk`, the enumeration callback folded over the devices, binds transport and device to the last matching device, and changes nothing when no device matches |
| Session.Ping | trezor.go:89-103 | false (`Dead`) without a device or when the HID report fails; otherwise it never returns (`Stalled`) exactly when no pong comes, and is true (`Alive`) exactly when the pong is "ping" |
| Session.PingSent | trezor.go:89-103 | the liveness check sends at most one message, the probe Ping("ping", false, false, false), and sends it exactly when a device is bound and its HID report succeeds |
| Session.ProbeOutcome | trezor_linux.go:44-52 | with no reply the post-bind probe waits for ever (`Unanswered`); it succeeds exactly on the echo "ping"; otherwise it is fatal for a Success reply and a panic for any other kind, never ErrNoTrezor or a retry |
| Session.Reconnect | trezor_linux.go:18-56 | abort and an unfinished search leave the session unchanged and send no probe; any other exit, an unanswered probe included, has probed, bound transport and device to a matching device, and is decided by the probe; success only on the echo; abort only right after an Unmount answer; every prompt is the device-not-found prompt |
| Session.ReconnectOutcomes | trezor_linux.go:18-56 | after the leading retried rounds: the first matching round decides by its probe with the last match bound; an Unmount answer gives ErrNoTrezor with nothing bound; otherwise the loop is still running, which happens only while every answer was Retry |
| Session.RetryChangesNothing | trezor_linux.go:32-42 | a Retry answer after an empty round restarts enumeration from the same state, adding only the prompt |
| Session.AbortAtOnce | trezor_linux.go:32-42 | no match and Unmount on the first prompt gives ErrNoTrezor immediately, with the session unchanged |
| Session.CheckTrezorConnection | trezor.go:105-111 | Reconnect runs exactly when Ping returns false; the check is healthy exactly when Ping returns true, and stalls exactly when Ping never returns |
| Cipher.Classify | trezor.go:127-135 | ok exactly for Success/CipheredKeyValue, with the payload; a device-failure error exactly for Failure, carrying the payload; otherwise an unexpected-response error with the kind and the quoted bytes |
| Cipher.ClassifyDirections | trezor.go:154-162 | encrypt and decrypt classify alike, except that the unexpected-response error quotes the reply in encrypt and the input ciphertext in decrypt |
| Cipher.EncryptRequest | trezor.go:124 | encrypt passes the data bytes unmodified, isToEncrypt true, askOnEncode false, askOnDecode true |
| Cipher.DecryptRequest | trezor.go:144-152 | decrypt passes the hex of the ciphertext followed by fewer than 32 '0's, ending on a multiple of 32, with isToEncrypt false and the same ask flags |
| Cipher.CipherKeyValue | trezor.go:114-117 | the CipherKeyValue request goes first, and a returned reply is the first non-interactive one |
| Cipher.AfterGuard | trezor.go:105-111 | healthy: go on with the session unchanged; Connected: go on with the newly bound session; ErrNoTrezor: go on with the unchanged session; log.Fatal and log.Panic halt as such; a stalled ping, an unanswered probe and an endless search wait; the operation goes on exactly in the first three cases |
| Cipher.GuardSent | trezor.go:89-111 | the guard sends at most two messages, each the probe: exactly one when the cheap ping returns true or never returns, otherwise the cheap ping's traffic followed by Reconnect's probe |
| Cipher.Operate | trezor.go:122-135 | the operation returns exactly when the guard lets it go on and the call reaches a terminal reply; otherwise it halts as the guard did or waits; a returned operation sent the guard's probes and then exactly the call's traffic (its request and every acknowledgement), kept the guard's session, showed the guard's prompts then the call's, and classified the first non-interactive reply |
| Cipher.OperateReturns | trezor.go:119-163 | once the guard lets it go on, an operation whose agent can answer every secret request before the first terminal reply returns, after the guard's probes and i+1 messages, classifying that reply |
| Cipher.EncryptKey | trezor.go:119-136 | EncryptKey returns exactly when the guard goes on and the call replies; it then sent the guard's probes and then exactly the call's traffic, opening with the request with the data unmodified and the encrypt flags, and its result is the encrypt classification of the first non-interactive reply |
| Cipher.DecryptKey | trezor.go:138-163 | DecryptKey returns exactly when the guard goes on and the call replies; it then sent the guard's probes and then exactly the call's traffic, opening with the padded hex with the decrypt flags, and its result is the decrypt classification (quoting the ciphertext) of the first non-interactive reply |
| Cipher.EncryptOnHealthyDevice | trezor.go:89-136 | healthy session and a Success reply: EncryptKey sends the ping probe and then the unmodified request, shows no prompt, and returns the payload |
| Cipher.FailureIsReported | trezor.go:127-157 | a Failure reply gives a device-failure error carrying the payload, in both directions |
| Cipher.GuardDecides | trezor.go:105-111 | the operation halts fatally or panics exactly when Ping returned false and Reconnect did; it waits when the ping or Reconnect's probe is never answered or the search does not end; a returned operation keeps the session the guard left, and after an Unmount answer the request is still sent on the unchanged session |
| Cipher.SilentDeviceWaits | trezor.go:89-111 | a bound device that never answers the cheap ping leaves EncryptKey waiting after that single probe; a device that Reconnect binds (the last match of the first round) and that never answers its probe leaves it waiting too |

## Left out

- USB enumeration (`hid.UsbWalk`), `HIDReport` and the HID transport are foreign I/O. Their results are the `rounds`, `hidReportOk`, `pong` and `probe` inputs. A probe that is never answered is a missing `pong` or `probe`; no time limit exists on either wait, so none is modelled.
- Message encoding in the tesoro client (`Client.Call` and the request builders) and `StringToBIP32Path` are external libraries. Requests are the `Outbound` datatype, and the path string is passed through unparsed.
- The pinentry agent's internals are left out. Its setters become a recorded `Prompt`, `GetPin` a scripted answer and `Confirm` a scripted boolean.
- Logging is left out. Agent errors are collected in `CallTrace.errors` (`CallLogs`), which the cipher operations do not pass on. `log.Fatal`/`log.Panic` are the `NotInitialized`/`Panicked` outcomes. Error strings are kept as the values they quote, not formatted text.
- Construction (`New`) ignores both the pinentry error and `Reconnect`'s error, so there is nothing to state about it. Its initial state is `Session(None, None)`.
- The SLIP-0011 cryptography runs on the device.
- The unused `TrezorPassword` constant is left out.
- Cipher.Operate: a request sent while no transport is bound (the user chose Unmount and nothing was ever bound, so the state is still `Session(None, None)`) is modelled as reaching a device and being answered from `replies`. What the tesoro client does with a transport that was never set is not visible here. On that state the Go program may fail instead of returning the reply that `GuardDecides` describes.
- Session.Walk: the order in which `hid.UsbWalk` visits devices, and whether it visits all of them, cannot be seen. The model assumes every device is visited in the given order.
- Agent.SecretPromptIdentifiesKind and CallEngine.CallEndsAtFirstTerminal follow directly from the definitions. They are kept as named statements of the property.

=== FILE: agent.dfy ===
/** The human input agent (a pinentry client) as the core sees it: a prompt
    configured through four setters, and an answer that is either a secret
    (returned together with a possible error) or a yes/no confirmation. */
module Agent {
  import opened Wire

  /** What the four setters SetPrompt, SetDesc, SetOK and SetCancel leave
      configured when the agent is asked for an answer. */
  datatype Prompt = Prompt(title: string, desc: string, ok: string, cancel: string)

  /** One answer of GetPin: the secret it returned and the error, if any,
      returned beside it. */
  datatype AgentAnswer = AgentAnswer(secret: seq<Byte>, error: Option<string>)

  /** The prompt shown for a request that needs a secret. The title names the
      kind of secret; the OK label is "OK" only for a recovery word. */
  function SecretPrompt(k: MessageKind): (p: Prompt)
    requires NeedsSecret(k)
    ensures p.desc == "" && p.cancel == "Cancel"
    ensures p.title == "PIN" <==> k.PinMatrixRequest?
    ensures p.title == "Passphrase" <==> k.PassphraseRequest?
    ensures p.title == "Word" <==> k.WordRequest?
    ensures p.ok == "OK" <==> k.WordRequest?
    ensures p.ok == "Confirm" <==> !k.WordRequest?
  {
    match k
    case PinMatrixRequest => Prompt("PIN", "", "Confirm", "Cancel")
    case PassphraseRequest => Prompt("Passphrase", "", "Confirm", "Cancel")
    case WordRequest => Prompt("Word", "", "OK", "Cancel")
  }

  /** The prompt shown when no device matches; OK retries, Cancel aborts. */
  const NoDevicePrompt: Prompt :=
    Prompt("No Trezor devices found.", "Please check connection to your Trezor device.", "Retry", "Unmount")

  /** The prompt tells the user which secret is asked for: distinct request
      kinds never share a prompt, and none of them looks like the
      device-not-found prompt. */
  lemma SecretPromptIdentifiesKind(a: MessageKind, b: MessageKind)
    requires NeedsSecret(a) && NeedsSecret(b)
    ensures SecretPrompt(a) == SecretPrompt(b) <==> a == b
    ensures SecretPrompt(a) != NoDevicePrompt
  {
  }

  /** What the log receives for one answer: its error, if there was one. */
  function Logged(a: AgentAnswer): seq<string> {
    match a.error
    case None => []
    case Some(e) => [e]
  }

  /** What the log receives for a run of answers, in order. */
  function LoggedAll(answers: seq<AgentAnswer>): seq<string> {
    if |answers| == 0 then [] else Logged(answers[0]) + LoggedAll(answers[1..])
  }
}

=== FILE: call_engine.dfy ===
/** The interactive call engine (trezor.call): send a request, and while the
    device answers with a request for more input, resolve it and send the
    matching acknowledgement; the first other reply is returned unchanged.

    The device is a finite script of replies, one per message sent, and the
    agent a finite script of answers, one per secret asked for. The source
    has no step cap; here the reply script is what makes the resolution
    finite, and running out of either script stands for the device or the
    user never answering. */
module CallEngine {
  import opened Wire
  import opened Agent

  /** How one resolution ends: with a terminal reply, or blocked waiting on a
      device that sends nothing more or on an agent that never answers. */
  datatype Ending = Replied(reply: Message) | DeviceSilent | AgentSilent

  /** Everything observable about one resolution: how it ended, the messages
      sent (the request first, then one acknowledgement per interactive
      reply), the prompts shown and the agent errors logged, in the order of
      the answers used. */
  datatype CallTrace = CallTrace(ending: Ending, sent: seq<Outbound>, prompts: seq<Prompt>, errors: seq<string>)

  /** Number of replies in `rs` that ask for a secret. */
  function SecretCount(rs: seq<Message>): nat {
    if |rs| == 0 then 0
    else (if NeedsSecret(rs[0].kind) then 1 else 0) + SecretCount(rs[1..])
  }

  /** The acknowledgement answering an interactive reply of kind `k`; for the
      kinds that need one it carries `secret`. */
  function AckFor(k: MessageKind, secret: seq<Byte>): Outbound
    requires IsInteractive(k)
  {
    match k
    case PinMatrixRequest => PinMatrixAck(secret)
    case ButtonRequest => ButtonAck
    case PassphraseRequest => PassphraseAck(secret)
    case WordRequest => WordAck(secret)
  }

  /** Counting the secret requests of a prefix one reply further. */
  lemma {:induction false} SecretCountSnoc(rs: seq<Message>, n: nat)
    requires n < |rs|
    ensures SecretCount(rs[..n + 1]) == SecretCount(rs[..n]) + (if NeedsSecret(rs[n].kind) then 1 else 0)
  {
    if n > 0 {
      SecretCountSnoc(rs[1..], n - 1);
      assert rs[..n + 1][1..] == rs[1..][..n];
      assert rs[..n][1..] == rs[1..][..n - 1];
    }
  }

  /** Counting the secret requests of a prefix from its first reply. */
  lemma SecretCountCons(rs: seq<Message>, n: nat)
    requires 0 < n <= |rs|
    ensures SecretCount(rs[..n]) == (if NeedsSecret(rs[0].kind) then 1 else 0) + SecretCount(rs[1..][..n - 1])
  {
    assert rs[..n][1..] == rs[1..][..n - 1];
  }

  /** A longer prefix never holds fewer secret requests. */
  lemma {:induction false} SecretCountMonotone(rs: seq<Message>, m: nat, n: nat)
    requires m <= n <= |rs|
    ensures SecretCount(rs[..m]) <= SecretCount(rs[..n])
    decreases n - m
  {
    if m < n {
      SecretCountSnoc(rs, n - 1);
      SecretCountMonotone(rs, m, n - 1);
    }
  }

  /** The first `n` replies all ask for more input. */
  predicate InteractivePrefix(replies: seq<Message>, n: nat)
    requires n <= |replies|
  {
    forall j :: 0 <= j < n ==> IsInteractive(replies[j].kind)
  }

  /** Resolves `request` against the device's `replies`, asking the agent for
      a secret on each PIN, passphrase or word request and acknowledging a
      button request without asking. An agent error is logged and the secret
      returned beside it is still sent. */
  function Call(request: Outbound, replies: seq<Message>, answers: seq<AgentAnswer>): (t: CallTrace)
    decreases |replies|
    ensures 1 <= |t.sent| <= |replies| + 1 && t.sent[0] == request
    ensures InteractivePrefix(replies, |t.sent| - 1)
    ensures t.ending.Replied? ==>
      |t.sent| <= |replies| && t.ending.reply == replies[|t.sent| - 1] && !IsInteractive(t.ending.reply.kind)
    ensures t.ending.DeviceSilent? ==> |t.sent| == |replies| + 1
    ensures t.ending.AgentSilent? ==>
      |t.sent| <= |replies| && NeedsSecret(replies[|t.sent| - 1].kind)
      && SecretCount(replies[..|t.sent| - 1]) == |answers|
    ensures SecretCount(replies[..|t.sent| - 1]) <= |answers|
    ensures |t.prompts| == SecretCount(replies[..|t.sent| - 1]) + (if t.ending.AgentSilent? then 1 else 0)
  {
    if |replies| == 0 then
      CallTrace(DeviceSilent, [request], [], [])
    else
      var m := replies[0];
      if NeedsSecret(m.kind) then
        if |answers| == 0 then
          CallTrace(AgentSilent, [request], [SecretPrompt(m.kind)], [])
        else
          var a := answers[0];
          var rest := Call(AckFor(m.kind, a.secret), replies[1..], answers[1..]);
          SecretCountCons(replies, |rest.sent|);
          CallTrace(rest.ending, [request] + rest.sent, [SecretPrompt(m.kind)] + rest.prompts, Logged(a) + rest.errors)
      else if m.kind.ButtonRequest? then
        var rest := Call(ButtonAck, replies[1..], answers);
        SecretCountCons(replies, |rest.sent|);
        CallTrace(rest.ending, [request] + rest.sent, rest.prompts, rest.errors)
      else
        CallTrace(Replied(m), [request], [], [])
  }

  /** Reply `i` is the first reply that is not interactive. */
  predicate IsFirstTerminal(replies: seq<Message>, i: nat) {
    i < |replies| && !IsInteractive(replies[i].kind)
    && InteractivePrefix(replies, i)
  }

  /** When the agent can answer every secret request that precedes the first
      terminal reply, the call returns exactly that reply, after one
      acknowledgement per interactive reply and one prompt per secret
      request. */
  lemma CallReturnsFirstTerminal(request: Outbound, replies: seq<Message>, answers: seq<AgentAnswer>, i: nat)
    requires IsFirstTerminal(replies, i)
    requires SecretCount(replies[..i]) <= |answers|
    ensures Call(request, replies, answers).ending == Replied(replies[i])
    ensures |Call(request, replies, answers).sent| == i + 1
    ensures |Call(request, replies, answers).prompts| == SecretCount(replies[..i])
  {
    var t := Call(request, replies, answers);
    var n := |t.sent| - 1;
    assert n <= i;
    if t.ending.AgentSilent? {
      assert n != i;
      SecretCountSnoc(replies, n);
      SecretCountMonotone(replies, n + 1, i);
    }
  }

  /** The reply that ends the call always is the first terminal one. */
  lemma CallEndsAtFirstTerminal(request: Outbound, replies: seq<Message>, answers: seq<AgentAnswer>)
    ensures Call(request, replies, answers).ending.Replied? ==>
      IsFirstTerminal(replies, |Call(request, replies, answers).sent| - 1)
  {
  }

  /** The acknowledgement sent for interactive reply `j`: a button request is
      acknowledged without a secret, every other one with the secret of the
      agent's next unused answer, whether or not that answer carried an
      error. */
  lemma {:induction false} CallAcknowledges(request: Outbound, replies: seq<Message>, answers: seq<AgentAnswer>, j: nat)
    requires j < |Call(request, replies, answers).sent| - 1
    ensures IsInteractive(replies[j].kind)
    ensures replies[j].kind.ButtonRequest? ==> Call(request, replies, answers).sent[j + 1] == ButtonAck
    ensures NeedsSecret(replies[j].kind) ==>
      SecretCount(replies[..j]) < |answers|
      && Call(request, replies, answers).sent[j + 1]
         == AckFor(replies[j].kind, answers[SecretCount(replies[..j])].secret)
    decreases j
  {
    var m := replies[0];
    if j > 0 {
      if NeedsSecret(m.kind) {
        CallAcknowledges(AckFor(m.kind, answers[0].secret), replies[1..], answers[1..], j - 1);
      } else {
        CallAcknowledges(ButtonAck, replies[1..], answers, j - 1);
      }
      SecretCountCons(replies, j);
    }
  }

  /** The prompt shown for secret request `j` is the one for its kind, and it
      is the agent's answer number SecretCount(replies[..j]); button requests
      take no place in the prompt sequence. */
  lemma {:induction false} CallPrompts(request: Outbound, replies: seq<Message>, answers: seq<AgentAnswer>, j: nat)
    requires j < |Call(request, replies, answers).sent|
    requires j < |replies| && NeedsSecret(replies[j].kind)
    ensures SecretCount(replies[..j]) < |Call(request, replies, answers).prompts|
    ensures Call(request, replies, answers).prompts[SecretCount(replies[..j])] == SecretPrompt(replies[j].kind)
    decreases j
  {
    var m := replies[0];
    if j > 0 {
      if NeedsSecret(m.kind) {
        CallPrompts(AckFor(m.kind, answers[0].secret), replies[1..], answers[1..], j - 1);
      } else {
        CallPrompts(ButtonAck, replies[1..], answers, j - 1);
      }
      SecretCountCons(replies, j);
    }
  }

  /** The log receives the errors of exactly the answers the call used, in
      order: one answer per secret request before the end. */
  lemma {:induction false} CallLogs(request: Outbound, replies: seq<Message>, answers: seq<AgentAnswer>)
    ensures var t := Call(request, replies, answers);
      t.errors == LoggedAll(answers[..SecretCount(replies[..|t.sent| - 1])])
    decreases |replies|
  {
    var t := Call(request, replies, answers);
    if |replies| > 0 {
      var m := replies[0];
      if NeedsSecret(m.kind) && |answers| > 0 {
        var rest := Call(AckFor(m.kind, answers[0].secret), replies[1..], answers[1..]);
        CallSecretStep(request, replies, answers);
        CallLogs(AckFor(m.kind, answers[0].secret), replies[1..], answers[1..]);
        SecretCountCons(replies, |rest.sent|);
        LoggedAllCons(answers, SecretCount(replies[1..][..|rest.sent| - 1]));
      } else if m.kind.ButtonRequest? {
        var rest := Call(ButtonAck, replies[1..], answers);
        CallLogs(ButtonAck, replies[1..], answers);
        SecretCountCons(replies, |rest.sent|);
      }
    }
  }

  /** One step of the call on a secret request the agent answers: the
      acknowledgement is sent and the answer's error logged in front of the
      rest of the call. */
  lemma CallSecretStep(request: Outbound, replies: seq<Message>, answers: seq<AgentAnswer>)
    requires |replies| > 0 && NeedsSecret(replies[0].kind) && |answers| > 0
    ensures var t := Call(request, replies, answers);
      var rest := Call(AckFor(replies[0].kind, answers[0].secret), replies[1..], answers[1..]);
      |t.sent| == 1 + |rest.sent| && t.errors == Logged(answers[0]) + rest.errors
  {
  }

  /** The log of the first k + 1 answers, from the first one. */
  lemma LoggedAllCons(answers: seq<AgentAnswer>, k: nat)
    requires k < |answers|
    ensures LoggedAll(answers[..k + 1]) == Logged(answers[0]) + LoggedAll(answers[1..][..k])
  {
    assert answers[..k + 1][1..] == answers[1..][..k];
  }

  /** Two agent scripts that return the same secrets. */
  predicate SameSecrets(a: seq<AgentAnswer>, b: seq<AgentAnswer>) {
    |a| == |b| && forall i :: 0 <= i < |a| ==> a[i].secret == b[i].secret
  }

  /** An agent error never aborts or alters the resolution: only what is
      logged depends on the errors, everything sent, shown and returned
      depends only on the secrets. */
  lemma {:induction false} AgentErrorsOnlyLogged(request: Outbound, replies: seq<Message>, a: seq<AgentAnswer>, b: seq<AgentAnswer>)
    requires SameSecrets(a, b)
    ensures Call(request, replies, a).ending == Call(request, replies, b).ending
    ensures Call(request, replies, a).sent == Call(request, replies, b).sent
    ensures Call(request, replies, a).prompts == Call(request, replies, b).prompts
    decreases |replies|
  {
    if |replies| > 0 {
      var m := replies[0];
      if NeedsSecret(m.kind) && |a| > 0 {
        assert a[0].secret == b[0].secret;
        assert SameSecrets(a[1..], b[1..]) by {
          forall i | 0 <= i < |a[1..]| ensures a[1..][i].secret == b[1..][i].secret {
            assert a[1..][i] == a[i + 1] && b[1..][i] == b[i + 1];
          }
        }
        AgentErrorsOnlyLogged(AckFor(m.kind, a[0].secret), replies[1..], a[1..], b[1..]);
      } else if m.kind.ButtonRequest? {
        AgentErrorsOnlyLogged(ButtonAck, replies[1..], a, b);
      }
    }
  }

  /** A device that asks for the PIN once and then succeeds: the agent is
      asked once, with the PIN prompt, and the call returns the success
      reply; the PIN goes out even if the agent also reported an error. */
  lemma PinThenSuccess(request: Outbound, payload: seq<Byte>, answer: AgentAnswer)
    ensures var t := Call(request, [Message(PinMatrixRequest, []), Message(Success, payload)], [answer]);
      && t.ending == Replied(Message(Success, payload))
      && t.prompts == [Prompt("PIN", "", "Confirm", "Cancel")]
      && t.sent == [request, PinMatrixAck(answer.secret)]
  {
    var replies := [Message(PinMatrixRequest, []), Message(Success, payload)];
    assert replies[1..] == [Message(Success, payload)];
  }

  /** Button, then passphrase, then success: two acknowledgements but only
      one prompt, since the button request needs no agent. */
  lemma ButtonPassphraseSuccess(request: Outbound, payload: seq<Byte>, answer: AgentAnswer)
    ensures var t := Call(request, [Message(ButtonRequest, []), Message(PassphraseRequest, []), Message(Success, payload)], [answer]);
      && t.ending == Replied(Message(Success, payload))
      && t.prompts == [Prompt("Passphrase", "", "Confirm", "Cancel")]
      && t.sent == [request, ButtonAck, PassphraseAck(answer.secret)]
  {
    var replies := [Message(ButtonRequest, []), Message(PassphraseRequest, []), Message(Success, payload)];
    assert replies[1..] == [Message(PassphraseRequest, []), Message(Success, payload)];
    assert replies[1..][1..] == [Message(Success, payload)];
  }
}

=== FILE: cipher.dfy ===
/** The cipher operation layer: SLIP-0011 CipherKeyValue requests for the
    encrypt and decrypt directions (EncryptKey, DecryptKey), driven through
    the call engine after the connection guard, and the classification of
    the terminal reply. The cryptography runs on the device and is not
    modelled; the BIP32 path string is passed through unparsed. */
module Cipher {
  import opened Wire
  import opened Agent
  import opened CallEngine
  import opened HexPad
  import opened Session

  /** The errors EncryptKey and DecryptKey return. The source formats them
      as text; here they keep the values the text quotes. */
  datatype CipherError =
    | DeviceFailure(message: seq<Byte>)
    | UnexpectedResponse(kind: MessageKind, quoted: seq<Byte>)

  /** The kinds that carry a result. */
  predicate IsResultKind(k: MessageKind) {
    k.Success? || k.CipheredKeyValue?
  }

  /** Classification of the terminal reply: a result kind yields the
      payload, Failure yields the device's message, any other kind an
      unexpected-response error quoting `quoted`. */
  function Classify(reply: Message, quoted: seq<Byte>): (r: Result<seq<Byte>, CipherError>)
    ensures r.Ok? <==> IsResultKind(reply.kind)
    ensures r.Ok? ==> r.value == reply.payload
    ensures reply.kind.Failure? <==> r.Err? && r.error.DeviceFailure?
    ensures r.Err? && r.error.DeviceFailure? ==> r.error.message == reply.payload
    ensures r.Err? && r.error.UnexpectedResponse? ==> r.error == UnexpectedResponse(reply.kind, quoted)
  {
    match reply.kind
    case Success => Ok(reply.payload)
    case CipheredKeyValue => Ok(reply.payload)
    case Failure => Err(DeviceFailure(reply.payload))
    case _ => Err(UnexpectedResponse(reply.kind, quoted))
  }

  /** EncryptKey's classification: the unexpected-response error quotes the
      reply. */
  function ClassifyEncrypt(reply: Message): Result<seq<Byte>, CipherError> {
    Classify(reply, reply.payload)
  }

  /** DecryptKey's classification: the unexpected-response error quotes the
      input ciphertext, not the reply. */
  function ClassifyDecrypt(reply: Message, encryptedKey: seq<Byte>): Result<seq<Byte>, CipherError> {
    Classify(reply, encryptedKey)
  }

  /** Both directions classify alike except for what the unexpected-response
      error quotes: the reply in encrypt, the ciphertext in decrypt. */
  lemma ClassifyDirections(reply: Message, encryptedKey: seq<Byte>)
    ensures !IsInteractive(reply.kind) && !IsResultKind(reply.kind) && !reply.kind.Failure? ==>
      ClassifyEncrypt(reply) == Err(UnexpectedResponse(reply.kind, reply.payload))
      && ClassifyDecrypt(reply, encryptedKey) == Err(UnexpectedResponse(reply.kind, encryptedKey))
    ensures IsResultKind(reply.kind) || reply.kind.Failure? ==>
      ClassifyEncrypt(reply) == ClassifyDecrypt(reply, encryptedKey)
  {
  }

  /** The request EncryptKey builds: the data unmodified, encrypt direction,
      no confirmation on encode, confirmation on decode. */
  function EncryptRequest(path: string, decryptedKey: seq<Byte>, nonce: seq<Byte>, keyName: string): (q: CipherRequest)
    ensures q.isToEncrypt && !q.askOnEncode && q.askOnDecode
    ensures q.data == decryptedKey && q.iv == nonce && q.path == path && q.keyName == keyName
  {
    CipherRequest(path, true, keyName, decryptedKey, nonce, false, true)
  }

  /** The request DecryptKey builds: the padded hex of the ciphertext,
      decrypt direction, the same confirmation flags as encrypt. */
  function DecryptRequest(path: string, encryptedKey: seq<Byte>, nonce: seq<Byte>, keyName: string): (q: CipherRequest)
    ensures !q.isToEncrypt && !q.askOnEncode && q.askOnDecode
    ensures |q.data| % 32 == 0 && 2 * |encryptedKey| <= |q.data| < 2 * |encryptedKey| + 32
    ensures q.data[..2 * |encryptedKey|] == HexEncode(encryptedKey)
    ensures forall i :: 2 * |encryptedKey| <= i < |q.data| ==> q.data[i] == '0'
    ensures q.iv == nonce && q.path == path && q.keyName == keyName
  {
    CipherRequest(path, false, keyName, DecryptInput(encryptedKey), nonce, false, true)
  }

  /** CipherKeyValue: send the request through the call engine. */
  function CipherKeyValue(q: CipherRequest, replies: seq<Message>, answers: seq<AgentAnswer>): (t: CallTrace)
    ensures 1 <= |t.sent| && t.sent[0] == CipherKeyValueReq(q)
    ensures t.ending.Replied? ==> IsFirstTerminal(replies, |t.sent| - 1) && t.ending.reply == replies[|t.sent| - 1]
  {
    CallEndsAtFirstTerminal(CipherKeyValueReq(q), replies, answers);
    Call(CipherKeyValueReq(q), replies, answers)
  }

  /** Everything the environment supplies to one operation: the HID report
      result and the reply to the cheap ping, the Reconnect inputs, the
      device's replies to the cipher request and the agent's answers. A
      missing ping or probe reply is a device that never answers it. */
  datatype Env = Env(
    hidReportOk: bool,
    pong: Option<Message>,
    rounds: seq<seq<Device>>,
    confirms: seq<bool>,
    probe: Option<Message>,
    replies: seq<Message>,
    answers: seq<AgentAnswer>)

  /** How the process leaves an operation without returning: log.Fatal and
      log.Panic in Reconnect, or waiting forever (the reconnect loop still
      going, a user who never answers its prompt, or a device or agent that
      never answers, the liveness probes included). */
  datatype Halt = FatalNotInitialized | Panic(kind: MessageKind, pong: seq<Byte>) | Waiting

  /** The end of one operation: a return, with the session it leaves, every
      message sent (the guard's probes, then the cipher request and its
      acknowledgements) and every prompt shown; or a halt. */
  datatype OpOutcome =
    | Returned(result: Result<seq<Byte>, CipherError>, session: Session, sent: seq<Outbound>, prompts: seq<Prompt>)
    | Halted(halt: Halt)

  /** The connection guard run before each operation. */
  function Guard(s: Session, env: Env): Health {
    CheckTrezorConnection(s, env.hidReportOk, env.pong, env.rounds, env.confirms, env.probe)
  }

  /** The session the operation goes on with after the connection guard, or
      the halt it ends in. An ErrNoTrezor from Reconnect is discarded, so the
      operation goes on with the unchanged session. */
  function AfterGuard(s: Session, h: Health): (r: Result<Session, Halt>)
    ensures h.Healthy? ==> r == Ok(s)
    ensures h.PingStalled? ==> r == Err(Waiting)
    ensures h.Reconnected? && h.run.outcome.Connected? ==> r == Ok(h.run.session)
    ensures h.Reconnected? && h.run.outcome.NoTrezor? ==> r == Ok(h.run.session)
    ensures h.Reconnected? && h.run.outcome.NotInitialized? ==> r == Err(FatalNotInitialized)
    ensures h.Reconnected? && h.run.outcome.Panicked? ==> r == Err(Panic(h.run.outcome.kind, h.run.outcome.pong))
    ensures h.Reconnected? && h.run.outcome.Unanswered? ==> r == Err(Waiting)
    ensures h.Reconnected? && h.run.outcome.Searching? ==> r == Err(Waiting)
    ensures r.Ok? <==> h.Healthy? || (h.Reconnected? && (h.run.outcome.Connected? || h.run.outcome.NoTrezor?))
  {
    match h
    case Healthy => Ok(s)
    case PingStalled => Err(Waiting)
    case Reconnected(run) =>
      match run.outcome
      case Connected => Ok(run.session)
      case NoTrezor => Ok(run.session)
      case NotInitialized => Err(FatalNotInitialized)
      case Panicked(k, p) => Err(Panic(k, p))
      case Unanswered => Err(Waiting)
      case Searching => Err(Waiting)
  }

  /** The prompts the connection guard showed. */
  function GuardPrompts(h: Health): seq<Prompt> {
    if h.Reconnected? then h.run.prompts else []
  }

  /** The messages the connection guard sends: the cheap ping when a device
      is bound and answers the HID report, then Reconnect's probe when the
      ping returned false and Reconnect bound a device. Each is the probe
      message, and there are at most two. */
  function GuardSent(s: Session, env: Env): (sent: seq<Outbound>)
    ensures |sent| <= 2 && forall j :: 0 <= j < |sent| ==> sent[j] == Probe
    ensures !Ping(s, env.hidReportOk, env.pong).Dead? ==> sent == [Probe]
    ensures Ping(s, env.hidReportOk, env.pong).Dead? ==>
      sent == PingSent(s, env.hidReportOk) + Reconnect(s, env.rounds, env.confirms, env.probe).sent
  {
    var h := Guard(s, env);
    PingSent(s, env.hidReportOk) + (if h.Reconnected? then h.run.sent else [])
  }

  /** Guard, then send `q`, then classify the terminal reply. An
      unexpected-response error quotes `input` when it is given (decrypt) and
      the reply otherwise (encrypt). */
  function Operate(s: Session, env: Env, q: CipherRequest, input: Option<seq<Byte>>): (o: OpOutcome)
    ensures o.Returned? <==>
      AfterGuard(s, Guard(s, env)).Ok? && Call(CipherKeyValueReq(q), env.replies, env.answers).ending.Replied?
    ensures o.Halted? ==>
      o.halt == (if AfterGuard(s, Guard(s, env)).Err? then AfterGuard(s, Guard(s, env)).error else Waiting)
    ensures o.Returned? ==>
      var g := GuardSent(s, env);
      var n := |o.sent| - |g| - 1;
      && |g| < |o.sent| && o.sent[..|g|] == g && o.sent[|g|] == CipherKeyValueReq(q)
      && o.sent == g + Call(CipherKeyValueReq(q), env.replies, env.answers).sent
      && o.session == AfterGuard(s, Guard(s, env)).value
      && IsFirstTerminal(env.replies, n)
      && o.result == Classify(env.replies[n], if input.Some? then input.value else env.replies[n].payload)
      && o.prompts == GuardPrompts(Guard(s, env)) + Call(CipherKeyValueReq(q), env.replies, env.answers).prompts
  {
    var h := Guard(s, env);
    match AfterGuard(s, h)
    case Err(halt) => Halted(halt)
    case Ok(s') =>
      var t := CipherKeyValue(q, env.replies, env.answers);
      if t.ending.Replied? then
        var reply := t.ending.reply;
        var g := GuardSent(s, env);
        var sent := g + t.sent;
        assert sent[..|g|] == g && sent[|g|] == t.sent[0];
        assert |sent| - |g| - 1 == |t.sent| - 1;
        Returned(Classify(reply, if input.Some? then input.value else reply.payload), s', sent, GuardPrompts(h) + t.prompts)
      else
        Halted(Waiting)
  }

  /** EncryptKey: it returns exactly when the guard lets it go on and the
      call reaches a terminal reply; it then sent the guard's probes and the
      request with the data unmodified and the encrypt flags, and its result
      is the encrypt classification of the first non-interactive reply. */
  function EncryptKey(s: Session, env: Env, path: string, decryptedKey: seq<Byte>, nonce: seq<Byte>, keyName: string): (o: OpOutcome)
    ensures var q := CipherRequest(path, true, keyName, decryptedKey, nonce, false, true);
      o.Returned? <==>
        AfterGuard(s, Guard(s, env)).Ok? && Call(CipherKeyValueReq(q), env.replies, env.answers).ending.Replied?
    ensures o.Returned? ==>
      var g := GuardSent(s, env);
      var n := |o.sent| - |g| - 1;
      && |g| < |o.sent| && o.sent[..|g|] == g
      && o.sent[|g|] == CipherKeyValueReq(CipherRequest(path, true, keyName, decryptedKey, nonce, false, true))
      && o.sent == g + Call(CipherKeyValueReq(CipherRequest(path, true, keyName, decryptedKey, nonce, false, true)),
                            env.replies, env.answers).sent
      && IsFirstTerminal(env.replies, n)
      && o.result == ClassifyEncrypt(env.replies[n])
  {
    Operate(s, env, EncryptRequest(path, decryptedKey, nonce, keyName), None)
  }

  /** DecryptKey: it returns exactly when the guard lets it go on and the
      call reaches a terminal reply; it then sent the guard's probes and the
      padded hex with the decrypt flags, and its result is the decrypt
      classification (quoting the ciphertext) of the first non-interactive
      reply. */
  function DecryptKey(s: Session, env: Env, path: string, encryptedKey: seq<Byte>, nonce: seq<Byte>, keyName: string): (o: OpOutcome)
    ensures var q := CipherRequest(path, false, keyName, DecryptInput(encryptedKey), nonce, false, true);
      o.Returned? <==>
        AfterGuard(s, Guard(s, env)).Ok? && Call(CipherKeyValueReq(q), env.replies, env.answers).ending.Replied?
    ensures o.Returned? ==>
      var g := GuardSent(s, env);
      var n := |o.sent| - |g| - 1;
      && |g| < |o.sent| && o.sent[..|g|] == g
      && o.sent[|g|] == CipherKeyValueReq(CipherRequest(path, false, keyName, DecryptInput(encryptedKey), nonce, false, true))
      && o.sent == g + Call(CipherKeyValueReq(CipherRequest(path, false, keyName, DecryptInput(encryptedKey), nonce, false, true)),
                            env.replies, env.answers).sent
      && IsFirstTerminal(env.replies, n)
      && o.result == ClassifyDecrypt(env.replies[n], encryptedKey)
  {
    Operate(s, env, DecryptRequest(path, encryptedKey, nonce, keyName), Some(encryptedKey))
  }

  /** When the guard lets the operation go on and the agent can answer every
      secret request before the first non-interactive reply, the operation
      returns after the guard's probes, the request and one acknowledgement
      per interactive reply, classifying that reply. */
  lemma OperateReturns(s: Session, env: Env, q: CipherRequest, input: Option<seq<Byte>>, i: nat)
    requires AfterGuard(s, Guard(s, env)).Ok?
    requires IsFirstTerminal(env.replies, i) && SecretCount(env.replies[..i]) <= |env.answers|
    ensures var o := Operate(s, env, q, input);
      && o.Returned?
      && |o.sent| == |GuardSent(s, env)| + i + 1
      && o.result == Classify(env.replies[i], if input.Some? then input.value else env.replies[i].payload)
  {
    CallReturnsFirstTerminal(CipherKeyValueReq(q), env.replies, env.answers, i);
  }

  /** A connected device that answers the encrypt request with Success:
      EncryptKey sends the cheap ping and then the request carrying the data
      bytes unmodified, shows no prompt, and returns the reply's payload. */
  lemma EncryptOnHealthyDevice(s: Session, env: Env, path: string, decryptedKey: seq<Byte>, nonce: seq<Byte>, keyName: string, payload: seq<Byte>)
    requires Ping(s, env.hidReportOk, env.pong).Alive?
    requires env.replies == [Message(Success, payload)]
    ensures EncryptKey(s, env, path, decryptedKey, nonce, keyName)
      == Returned(Ok(payload), s, [Probe, CipherKeyValueReq(CipherRequest(path, true, keyName, decryptedKey, nonce, false, true))], [])
  {
  }

  /** A Failure reply is reported as the device's own message, in both
      directions. */
  lemma FailureIsReported(s: Session, env: Env, path: string, key: seq<Byte>, nonce: seq<Byte>, keyName: string, message: seq<Byte>)
    requires Ping(s, env.hidReportOk, env.pong).Alive?
    requires env.replies == [Message(Failure, message)]
    ensures EncryptKey(s, env, path, key, nonce, keyName).Returned?
    ensures EncryptKey(s, env, path, key, nonce, keyName).result == Err(DeviceFailure(message))
    ensures DecryptKey(s, env, path, key, nonce, keyName).Returned?
    ensures DecryptKey(s, env, path, key, nonce, keyName).result == Err(DeviceFailure(message))
  {
  }

  /** The guard halts the operation exactly when Reconnect ran and ended in
      log.Fatal or log.Panic, and makes it wait when a probe goes unanswered
      or the search does not end; otherwise the operation goes on with the
      session the guard left, even after the user aborted. */
  lemma GuardDecides(s: Session, env: Env, q: CipherRequest, input: Option<seq<Byte>>)
    ensures var l := Ping(s, env.hidReportOk, env.pong);
      var run := Reconnect(s, env.rounds, env.confirms, env.probe);
      var o := Operate(s, env, q, input);
      && (o == Halted(FatalNotInitialized) <==> l.Dead? && run.outcome.NotInitialized?)
      && (o.Halted? && o.halt.Panic? <==> l.Dead? && run.outcome.Panicked?)
      && (l.Stalled? ==> o == Halted(Waiting))
      && (l.Dead? && (run.outcome.Unanswered? || run.outcome.Searching?) ==> o == Halted(Waiting))
      && (o.Returned? ==> o.session == (if l.Alive? then s else run.session))
      && (l.Dead? && run.outcome.NoTrezor? && Call(CipherKeyValueReq(q), env.replies, env.answers).ending.Replied? ==>
            o.Returned? && o.session == s)
  {
  }

  /** A bound device that never answers the cheap ping leaves EncryptKey
      waiting after that one probe; so does a device that Reconnect binds and
      that never answers its probe. */
  lemma SilentDeviceWaits(s: Session, env: Env, path: string, decryptedKey: seq<Byte>, nonce: seq<Byte>, keyName: string)
    ensures s.device.Some? && env.hidReportOk && env.pong.None? ==>
      GuardSent(s, env) == [Probe] && EncryptKey(s, env, path, decryptedKey, nonce, keyName) == Halted(Waiting)
    ensures Ping(s, env.hidReportOk, env.pong).Dead? && env.probe.None?
            && 0 < |env.rounds| && LastMatch(env.rounds[0]).Some? ==>
      Reconnect(s, env.rounds, env.confirms, env.probe).session == Bind(LastMatch(env.rounds[0]).value)
      && EncryptKey(s, env, path, decryptedKey, nonce, keyName) == Halted(Waiting)
  {
    if 0 < |env.rounds| {
      WalkBindsLastMatch(s, false, env.rounds[0]);
    }
  }
}

=== FILE: hex_pad.dfy ===
/** Preparation of the decrypt input (DecryptKey): the ciphertext is
    hex-encoded in lower case, two characters per byte, and "00" is appended
    until the length is a multiple of 32 characters, that is a whole number
    of 16-byte blocks once the device decodes the hex. */
module HexPad {
  import opened Wire

  /** The lower-case hex alphabet used by Go's hex.EncodeToString. */
  const HexDigits: seq<Byte> := "0123456789abcdef"

  /** The hex character for a nibble. */
  function HexDigit(n: nat): Byte
    requires n < 16
  {
    HexDigits[n]
  }

  /** The value of a lower-case hex character, the inverse of HexDigit. */
  function DigitValue(c: Byte): (r: Option<nat>)
    ensures r.Some? ==> r.value < 16 && HexDigit(r.value) == c
    ensures forall n :: 0 <= n < 16 && HexDigit(n) == c ==> r == Some(n)
  {
    if '0' <= c <= '9' then Some(c as int - '0' as int)
    else if 'a' <= c <= 'f' then Some(c as int - 'a' as int + 10)
    else None
  }

  /** Characters 2i and 2i+1 of `r` are the high and low nibble of byte i
      of `bs`. */
  predicate EncodesByte(r: seq<Byte>, bs: seq<Byte>, i: nat)
    requires i < |bs| && |r| == 2 * |bs|
  {
    r[2 * i] == HexDigit(bs[i] as int / 16) && r[2 * i + 1] == HexDigit(bs[i] as int % 16)
  }

  /** Hex encoding, high nibble first. */
  function HexEncode(bs: seq<Byte>): (r: seq<Byte>)
    ensures |r| == 2 * |bs|
    ensures forall i :: 0 <= i < |bs| ==> EncodesByte(r, bs, i)
  {
    if |bs| == 0 then []
    else
      var rest := HexEncode(bs[1..]);
      var r := [HexDigit(bs[0] as int / 16), HexDigit(bs[0] as int % 16)] + rest;
      assert forall i :: 1 <= i < |bs| ==> EncodesByte(rest, bs[1..], i - 1) ==> EncodesByte(r, bs, i);
      r
  }

  /** Hex decoding of lower-case hex; None on an odd length or a character
      outside the alphabet. */
  function HexDecode(s: seq<Byte>): (r: Option<seq<Byte>>)
    decreases |s|
    ensures r.Some? ==> 2 * |r.value| == |s|
  {
    if |s| == 0 then Some([])
    else if |s| == 1 then None
    else
      match (DigitValue(s[0]), DigitValue(s[1]), HexDecode(s[2..]))
      case (Some(hi), Some(lo), Some(rest)) => Some([(hi * 16 + lo) as char] + rest)
      case _ => None
  }

  /** Decoding undoes encoding. */
  lemma {:induction false} HexRoundTrip(bs: seq<Byte>)
    ensures HexDecode(HexEncode(bs)) == Some(bs)
  {
    if |bs| > 0 {
      var hi, lo := bs[0] as int / 16, bs[0] as int % 16;
      assert HexEncode(bs) == [HexDigit(hi), HexDigit(lo)] + HexEncode(bs[1..]);
      DecodePair(hi, lo, HexEncode(bs[1..]));
      HexRoundTrip(bs[1..]);
      assert (hi * 16 + lo) as char == bs[0];
      assert [bs[0]] + bs[1..] == bs;
    }
  }

  /** Decoding a string that starts with two hex characters: their byte in
      front of the decoded rest, if the rest decodes. */
  lemma DecodePair(hi: nat, lo: nat, t: seq<Byte>)
    requires hi < 16 && lo < 16
    ensures HexDecode([HexDigit(hi), HexDigit(lo)] + t)
      == if HexDecode(t).Some? then Some([(hi * 16 + lo) as char] + HexDecode(t).value) else None
  {
    var h := [HexDigit(hi), HexDigit(lo)] + t;
    assert h[0] == HexDigit(hi) && h[1] == HexDigit(lo) && h[2..] == t;
    assert DigitValue(HexDigit(hi)) == Some(hi);
    assert DigitValue(HexDigit(lo)) == Some(lo);
  }

  /** Encoding undoes decoding. */
  lemma {:induction false} HexEncodeDecoded(s: seq<Byte>, bs: seq<Byte>)
    requires HexDecode(s) == Some(bs)
    ensures HexEncode(bs) == s
    decreases |s|
  {
    if |s| > 0 {
      var hi := DigitValue(s[0]).value;
      var lo := DigitValue(s[1]).value;
      HexEncodeDecoded(s[2..], HexDecode(s[2..]).value);
      assert bs[1..] == HexDecode(s[2..]).value;
      var b := bs[0] as int;
      assert b == hi * 16 + lo;
      assert b / 16 == hi && b % 16 == lo;
      var e := HexEncode(bs);
      assert e[0] == s[0] && e[1] == s[1];
      assert e[2..] == HexEncode(bs[1..]) by {
        forall i | 0 <= i < |bs| - 1
          ensures e[2..][2 * i] == HexEncode(bs[1..])[2 * i] && e[2..][2 * i + 1] == HexEncode(bs[1..])[2 * i + 1]
        {
          assert e[2..][2 * i] == e[2 * (i + 1)];
          assert e[2..][2 * i + 1] == e[2 * (i + 1) + 1];
        }
        HexEqual(e[2..], HexEncode(bs[1..]), bs[1..]);
      }
      assert e == e[..2] + e[2..];
      assert s == s[..2] + s[2..];
    }
  }

  /** Two strings that agree with the encoding of `bs` character by character
      are equal. */
  lemma HexEqual(a: seq<Byte>, b: seq<Byte>, bs: seq<Byte>)
    requires |a| == |b| == 2 * |bs|
    requires forall i :: 0 <= i < |bs| ==> a[2 * i] == b[2 * i] && a[2 * i + 1] == b[2 * i + 1]
    ensures a == b
  {
    forall k | 0 <= k < |a| ensures a[k] == b[k] {
      var i := k / 2;
      assert k == 2 * i || k == 2 * i + 1;
    }
  }

  /** Appends "00" until the length is a multiple of 32. The source loops
      forever on an odd length, and it panics before the loop when the length
      is odd; the precondition is that guard. */
  function Pad(s: seq<Byte>): (r: seq<Byte>)
    requires |s| % 2 == 0
    decreases if |s| % 32 == 0 then 0 else 32 - |s| % 32
    ensures |r| % 32 == 0
    ensures |s| <= |r| < |s| + 32
    ensures r[..|s|] == s
    ensures forall i :: |s| <= i < |r| ==> r[i] == '0'
  {
    if |s| % 32 == 0 then s
    else
      var t := s + "00";
      PadStep(|s|);
      var r := Pad(t);
      PadBound(|s|, |r|);
      assert r[..|s|] == t[..|s|];
      assert r[|s|] == t[|s|] && r[|s| + 1] == t[|s| + 1];
      r
  }

  /** An even length lies at most 30 past its multiple of 32. */
  lemma EvenResidue(n: nat)
    requires n % 2 == 0
    ensures n == 32 * (n / 32) + n % 32 && n % 32 <= 30
  {
    var k, m, h := n / 32, n % 32, n / 2;
    assert n == 32 * k + m && n == 2 * h;
    assert m == 2 * (h - 16 * k);
  }

  /** The remainder modulo 32 of 32 * q + r, for 0 <= r < 32, is r. */
  lemma Mod32(n: int, q: int, r: int)
    requires 0 <= r < 32 && n == 32 * q + r
    ensures n % 32 == r
  {
  }

  /** Appending "00" to an even length that is not a multiple of 32 keeps
      it even and brings it closer to the next multiple of 32. */
  lemma PadStep(n: nat)
    requires n % 2 == 0 && n % 32 != 0
    ensures (n + 2) % 2 == 0
    ensures (if (n + 2) % 32 == 0 then 0 else 32 - (n + 2) % 32) < 32 - n % 32
  {
    EvenResidue(n);
    var k, m := n / 32, n % 32;
    if m + 2 < 32 {
      Mod32(n + 2, k, m + 2);
    } else {
      Mod32(n + 2, k + 1, 0);
    }
  }

  /** The multiple of 32 that padding an even length reaches is the next
      one, fewer than 32 characters further. */
  lemma PadBound(n: nat, len: nat)
    requires n % 2 == 0 && n % 32 != 0
    requires len % 32 == 0 && n + 2 <= len < n + 34
    ensures len < n + 32
  {
    EvenResidue(n);
    var k, m, q := n / 32, n % 32, len / 32;
    assert len == 32 * q;
    assert q >= k + 1;
    assert q <= k + 1;
  }

  /** The decrypt input handed to the device for ciphertext `ct`: the hex
      encoding of the ciphertext followed by fewer than 32 '0' characters,
      ending on a 32-character boundary; nothing is appended when the
      ciphertext already fills whole 16-byte blocks. */
  function DecryptInput(ct: seq<Byte>): (r: seq<Byte>)
    ensures |r| % 32 == 0
    ensures 2 * |ct| <= |r| < 2 * |ct| + 32
    ensures r[..2 * |ct|] == HexEncode(ct)
    ensures forall i :: 2 * |ct| <= i < |r| ==> r[i] == '0'
    ensures |ct| % 16 == 0 ==> r == HexEncode(ct)
  {
    WholeBlocks(|ct|);
    Pad(HexEncode(ct))
  }

  /** The ciphertext is recovered from the decrypt input by decoding its
      first 2 * |ct| characters; the padding itself carries no length. */
  lemma DecryptInputRecovers(ct: seq<Byte>)
    ensures HexDecode(DecryptInput(ct)[..2 * |ct|]) == Some(ct)
  {
    HexRoundTrip(ct);
  }

  /** A whole number of 16-byte blocks is a whole number of 32-character
      hex blocks. */
  lemma WholeBlocks(n: nat)
    ensures n % 16 == 0 ==> (2 * n) % 32 == 0
  {
    if n % 16 == 0 {
      var k := n / 16;
      assert n == 16 * k;
      assert 2 * n == 32 * k;
    }
  }

  /** The padding is not reversible on its own: a one-byte zero ciphertext
      and a sixteen-byte zero ciphertext give the same device input, so the
      caller must know the true length. */
  lemma PaddingHidesLength()
    ensures DecryptInput([0 as char]) == DecryptInput(seq(16, _ => 0 as char))
  {
    var zeros: seq<Byte> := seq(16, _ => 0 as char);
    var one := DecryptInput([0 as char]);
    var h := HexEncode(zeros);
    assert DecryptInput(zeros) == h;
    assert HexDigit(0) == '0';
    forall i | 0 <= i < 32 ensures one[i] == h[i] {
      var k := i / 2;
      assert EncodesByte(h, zeros, k);
      assert zeros[k] as int == 0;
      assert i == 2 * k || i == 2 * k + 1;
      if i < 2 {
        assert EncodesByte(HexEncode([0 as char]), [0 as char], 0);
        assert one[..2] == HexEncode([0 as char]);
      }
    }
  }
}

=== FILE: session.dfy ===
/** The session manager: the liveness check (Ping), the guard run before
    every cipher operation (CheckTrezorConnection) and the reconnect loop
    (Reconnect, Linux variant).

    USB enumeration, the HID report and the probe replies are inputs: each
    Reconnect round sees one enumeration from `rounds`, each "device not
    found" prompt gets one answer from `confirms`, and the cheap ping and
    the post-bind probe get the replies `pong` and `probe`. Running out of
    rounds stands for the loop still going, running out of answers for a
    user who never answers the prompt, and a missing probe reply for a
    device that never answers. log.Fatal and log.Panic end the process and
    are outcomes of their own. */
module Session {
  import opened Wire
  import opened Agent

  /** What the core reads of an enumerated USB device; `path` tells apart
      devices with the same identifiers. */
  datatype Device = Device(path: string, vendor: nat, product: nat, iface: nat)

  /** The state Reconnect writes: the device bound to the message client's
      transport, and the device kept for HID reports. Both are unset (nil)
      until a device is first bound. */
  datatype Session = Session(transport: Option<Device>, device: Option<Device>)

  /** The fixed identity of the token. */
  const TrezorVendor: nat := 21324
  const TrezorProduct: nat := 1
  const TrezorInterface: nat := 0

  /** The device-matching predicate of the enumeration callback. */
  predicate IsTrezor(d: Device) {
    d.vendor == TrezorVendor && d.product == TrezorProduct && d.iface == TrezorInterface
  }

  /** Binding a device sets both the transport and the HID device. */
  function Bind(d: Device): Session {
    Session(Some(d), Some(d))
  }

  /** The enumeration callback applied to every device in turn: each match
      binds, and the callback's early return leaves only that call, so the
      walk goes on. Returns the session and whether anything matched. */
  function Walk(s: Session, found: bool, devices: seq<Device>): (Session, bool)
    decreases |devices|
  {
    if |devices| == 0 then (s, found)
    else if IsTrezor(devices[0]) then Walk(Bind(devices[0]), true, devices[1..])
    else Walk(s, found, devices[1..])
  }

  /** No device after position `i` matches. */
  predicate NoMatchAfter(devices: seq<Device>, i: nat) {
    forall j :: i < j < |devices| ==> !IsTrezor(devices[j])
  }

  /** Reference definition of the device a walk leaves bound: the last
      matching one. */
  function LastMatch(devices: seq<Device>): (r: Option<Device>)
    ensures r.None? <==> forall i :: 0 <= i < |devices| ==> !IsTrezor(devices[i])
    ensures r.Some? ==> exists i :: 0 <= i < |devices| && devices[i] == r.value && IsTrezor(devices[i])
                                    && NoMatchAfter(devices, i)
  {
    if |devices| == 0 then None
    else
      var n := |devices| - 1;
      if IsTrezor(devices[n]) then
        Some(devices[n])
      else
        var p := devices[..n];
        var r := LastMatch(p);
        assert forall i :: 0 <= i < n ==> p[i] == devices[i];
        r
  }

  /** The walk binds the last matching device, and changes nothing when no
      device matches. */
  lemma {:induction false} WalkBindsLastMatch(s: Session, found: bool, devices: seq<Device>)
    ensures LastMatch(devices).Some? ==> Walk(s, found, devices) == (Bind(LastMatch(devices).value), true)
    ensures LastMatch(devices).None? ==> Walk(s, found, devices) == (s, found)
    decreases |devices|
  {
    if |devices| > 0 {
      var rest := devices[1..];
      WalkBindsLastMatch(Bind(devices[0]), true, rest);
      WalkBindsLastMatch(s, found, rest);
      if |rest| > 0 {
        assert devices[|devices| - 1] == rest[|rest| - 1];
        assert devices[..|devices| - 1][1..] == rest[..|rest| - 1];
        LastMatchCons(devices);
      }
    }
  }

  /** The last match of a non-empty walk, from its first device. */
  lemma LastMatchCons(devices: seq<Device>)
    requires |devices| > 1
    ensures LastMatch(devices) == (if LastMatch(devices[1..]).Some? then LastMatch(devices[1..])
                                   else if IsTrezor(devices[0]) then Some(devices[0]) else None)
  {
    var rest := devices[1..];
    if LastMatch(rest).None? {
      forall i | 1 <= i < |devices| ensures !IsTrezor(devices[i]) {
        assert devices[i] == rest[i - 1];
      }
      if IsTrezor(devices[0]) {
        LastMatchUnique(devices, LastMatch(devices).value, devices[0], 0);
      }
    } else {
      var i :| 0 <= i < |rest| && rest[i] == LastMatch(rest).value && IsTrezor(rest[i])
        && NoMatchAfter(rest, i);
      assert devices[i + 1] == rest[i];
      LastMatchUnique(devices, LastMatch(devices).value, LastMatch(rest).value, i + 1);
    }
  }

  /** A matching device with no match after it is the last match. */
  lemma LastMatchUnique(devices: seq<Device>, a: Device, b: Device, k: nat)
    requires LastMatch(devices) == Some(a)
    requires k < |devices| && devices[k] == b && IsTrezor(b)
    requires NoMatchAfter(devices, k)
    ensures a == b
  {
    var i :| 0 <= i < |devices| && devices[i] == a && IsTrezor(devices[i])
      && NoMatchAfter(devices, i);
  }

  /** The probe message: the fixed payload, no button, PIN or passphrase
      protection. Both the cheap liveness check and Reconnect send it. */
  const Probe: Outbound := PingReq(PingPayload, false, false, false)

  /** What the cheap liveness check comes to: it returns true (`Alive`) or
      false (`Dead`), or it never returns because the device does not answer
      the probe (`Stalled`). */
  datatype Liveness = Alive | Dead | Stalled

  /** The cheap liveness check: false without a bound device or when the
      HID report fails; otherwise it sends the probe and waits for the pong,
      and is true exactly when the pong echoes "ping". The kind of the pong
      is not looked at. */
  function Ping(s: Session, hidReportOk: bool, pong: Option<Message>): (l: Liveness)
    ensures s.device.None? || !hidReportOk ==> l == Dead
    ensures l.Stalled? <==> s.device.Some? && hidReportOk && pong.None?
    ensures l.Alive? <==> s.device.Some? && hidReportOk && pong.Some? && pong.value.payload == PingPayload
  {
    if s.device.None? then Dead
    else if !hidReportOk then Dead
    else if pong.None? then Stalled
    else if pong.value.payload == PingPayload then Alive
    else Dead
  }

  /** The messages the liveness check sends: the probe, exactly when a
      device is bound and its HID report succeeds; otherwise the check
      returns before reaching the device. */
  function PingSent(s: Session, hidReportOk: bool): (sent: seq<Outbound>)
    ensures |sent| <= 1 && forall j :: 0 <= j < |sent| ==> sent[j] == Probe
    ensures sent != [] <==> s.device.Some? && hidReportOk
  {
    if s.device.Some? && hidReportOk then [Probe] else []
  }

  /** How Reconnect ends. `Connected` is the nil return, `NoTrezor` the
      ErrNoTrezor return, `NotInitialized` the log.Fatal exit, `Panicked` the
      log.Panic; `Unanswered` means the bound device never answered the
      probe, and `Searching` that the loop is still going or waits for the
      user's answer. */
  datatype ReconnectOutcome =
    | Connected
    | NoTrezor
    | NotInitialized
    | Panicked(kind: MessageKind, pong: seq<Byte>)
    | Unanswered
    | Searching

  /** The result of one Reconnect: its outcome, the session it leaves, the
      prompts shown and the probes sent. */
  datatype ReconnectRun = ReconnectRun(outcome: ReconnectOutcome, session: Session, prompts: seq<Prompt>, sent: seq<Outbound>)

  /** What the post-bind probe reply decides; with no reply the probe waits
      for ever. */
  function ProbeOutcome(probe: Option<Message>): (r: ReconnectOutcome)
    ensures r.Unanswered? <==> probe.None?
    ensures r.Connected? <==> probe.Some? && probe.value.payload == PingPayload
    ensures r.NotInitialized? <==> probe.Some? && probe.value.payload != PingPayload && probe.value.kind.Success?
    ensures r.Panicked? <==> probe.Some? && probe.value.payload != PingPayload && !probe.value.kind.Success?
    ensures r.Panicked? ==> r == Panicked(probe.value.kind, probe.value.payload)
    ensures !r.NoTrezor? && !r.Searching?
  {
    if probe.None? then Unanswered
    else if probe.value.payload == PingPayload then Connected
    else if probe.value.kind.Success? then NotInitialized
    else Panicked(probe.value.kind, probe.value.payload)
  }

  /** The reconnect loop: enumerate; on a match bind it and probe it; on no
      match ask the user to retry or abort. */
  function Reconnect(s: Session, rounds: seq<seq<Device>>, confirms: seq<bool>, probe: Option<Message>): (r: ReconnectRun)
    decreases |rounds|
    ensures r.outcome.NoTrezor? || r.outcome.Searching? ==> r.session == s && r.sent == []
    ensures r.outcome.Connected? ==> probe.Some? && probe.value.payload == PingPayload
    ensures !r.outcome.NoTrezor? && !r.outcome.Searching? ==>
      r.sent == [Probe]
      && r.session.device.Some? && IsTrezor(r.session.device.value)
      && r.session.transport == r.session.device
      && r.outcome == ProbeOutcome(probe)
    ensures r.outcome.NoTrezor? ==> 1 <= |r.prompts| <= |confirms| && !confirms[|r.prompts| - 1]
    ensures forall j :: 0 <= j < |r.prompts| ==> r.prompts[j] == NoDevicePrompt
  {
    if |rounds| == 0 then
      ReconnectRun(Searching, s, [], [])
    else
      var (bound, found) := Walk(s, false, rounds[0]);
      WalkBindsLastMatch(s, false, rounds[0]);
      if !found then
        if |confirms| == 0 then
          ReconnectRun(Searching, s, [NoDevicePrompt], [])
        else if !confirms[0] then
          ReconnectRun(NoTrezor, s, [NoDevicePrompt], [])
        else
          var rest := Reconnect(s, rounds[1..], confirms[1..], probe);
          ReconnectRun(rest.outcome, rest.session, [NoDevicePrompt] + rest.prompts, rest.sent)
      else
        ReconnectRun(ProbeOutcome(probe), bound, [], [Probe])
  }

  /** Number of leading rounds in which nothing matched and the user chose
      Retry. */
  function Retries(rounds: seq<seq<Device>>, confirms: seq<bool>): (k: nat)
    ensures k <= |rounds| && k <= |confirms|
    ensures forall j :: 0 <= j < k ==> LastMatch(rounds[j]).None? && confirms[j]
    ensures k < |rounds| && k < |confirms| ==> LastMatch(rounds[k]).Some? || !confirms[k]
  {
    if |rounds| == 0 || |confirms| == 0 || LastMatch(rounds[0]).Some? || !confirms[0] then 0
    else 1 + Retries(rounds[1..], confirms[1..])
  }

  /** Every way Reconnect can end, after k = Retries(rounds, confirms)
      retried rounds: the first round that matches decides by its probe and
      leaves its last matching device bound; an abort answer returns
      ErrNoTrezor with nothing bound; otherwise the loop is still going,
      which happens only while every answer so far was Retry. */
  lemma {:induction false} ReconnectOutcomes(s: Session, rounds: seq<seq<Device>>, confirms: seq<bool>, probe: Option<Message>)
    ensures var k := Retries(rounds, confirms);
      var r := Reconnect(s, rounds, confirms, probe);
      && (k < |rounds| && LastMatch(rounds[k]).Some? ==>
            r.outcome == ProbeOutcome(probe) && r.session == Bind(LastMatch(rounds[k]).value) && |r.prompts| == k)
      && (k < |rounds| && LastMatch(rounds[k]).None? && k < |confirms| ==>
            r.outcome == NoTrezor && r.session == s && |r.prompts| == k + 1)
      && (k == |rounds| || (LastMatch(rounds[k]).None? && k == |confirms|) <==> r.outcome.Searching?)
    decreases |rounds|
  {
    if |rounds| > 0 {
      WalkBindsLastMatch(s, false, rounds[0]);
      if LastMatch(rounds[0]).None? && |confirms| > 0 && confirms[0] {
        ReconnectOutcomes(s, rounds[1..], confirms[1..], probe);
      }
    }
  }

  /** A Retry answer starts the next round from the same state: nothing but
      the prompt shown differs from running the remaining rounds. */
  lemma RetryChangesNothing(s: Session, rounds: seq<seq<Device>>, confirms: seq<bool>, probe: Option<Message>)
    requires |rounds| > 0 && |confirms| > 0 && confirms[0]
    requires forall i :: 0 <= i < |rounds[0]| ==> !IsTrezor(rounds[0][i])
    ensures var r := Reconnect(s, rounds, confirms, probe);
      var rest := Reconnect(s, rounds[1..], confirms[1..], probe);
      r == ReconnectRun(rest.outcome, rest.session, [NoDevicePrompt] + rest.prompts, rest.sent)
  {
    WalkBindsLastMatch(s, false, rounds[0]);
  }

  /** No matching device and an abort on the first prompt: ErrNoTrezor at
      once, without another round. */
  lemma AbortAtOnce(s: Session, devices: seq<Device>, more: seq<seq<Device>>, probe: Option<Message>)
    requires forall i :: 0 <= i < |devices| ==> !IsTrezor(devices[i])
    ensures Reconnect(s, [devices] + more, [false], probe) == ReconnectRun(NoTrezor, s, [NoDevicePrompt], [])
  {
    WalkBindsLastMatch(s, false, devices);
  }

  /** What the guard before a cipher operation did: nothing, because the
      session answered the cheap ping; nothing yet, because the cheap ping is
      still waiting for its pong; or a Reconnect. */
  datatype Health = Healthy | PingStalled | Reconnected(run: ReconnectRun)

  /** CheckTrezorConnection: Reconnect exactly when Ping returns false. Its
      error is discarded by the source, so the caller goes on after an
      abort. */
  function CheckTrezorConnection(s: Session, hidReportOk: bool, pong: Option<Message>,
                                 rounds: seq<seq<Device>>, confirms: seq<bool>, probe: Option<Message>): (h: Health)
    ensures h.Healthy? <==> Ping(s, hidReportOk, pong).Alive?
    ensures h.PingStalled? <==> Ping(s, hidReportOk, pong).Stalled?
    ensures h.Reconnected? <==> Ping(s, hidReportOk, pong).Dead?
    ensures h.Reconnected? ==> h.run == Reconnect(s, rounds, confirms, probe)
  {
    match Ping(s, hidReportOk, pong)
    case Alive => Healthy
    case Stalled => PingStalled
    case Dead => Reconnected(Reconnect(s, rounds, confirms, probe))
  }
}

=== FILE: wire.dfy ===
/** Message vocabulary shared by the call engine, the session manager and the
    cipher layer: bytes, the device's message kinds, replies received from the
    device and the requests the host sends to it. The wire encoding itself
    belongs to an external codec and is not modelled. */
module Wire {

  /** A Go byte. Go strings and byte slices are both byte sequences, so both
      are modelled as seq<Byte>; using a subset of char keeps literals such as
      "ping" and "00" readable. */
  type Byte = c: char | c as int < 256

  /** Generic optional value. */
  datatype Option<+T> = None | Some(value: T)

  /** Generic success-or-error value. */
  datatype Result<+T, +E> = Ok(value: T) | Err(error: E)

  /** The message kinds the core distinguishes; every other kind of the
      device's enumeration is `Other`, carrying its numeric code. That code
      is never the code of one of the named kinds, so each kind on the wire
      has one value here; the core only ever compares against the named
      kinds and passes `code` through to its errors. */
  datatype MessageKind =
    | PinMatrixRequest
    | ButtonRequest
    | PassphraseRequest
    | WordRequest
    | Success
    | CipheredKeyValue
    | Failure
    | Other(code: nat)

  /** A decoded reply from the device: its kind and its payload. */
  datatype Message = Message(kind: MessageKind, payload: seq<Byte>)

  /** The logical parameters of one SLIP-0011 CipherKeyValue request. */
  datatype CipherRequest = CipherRequest(
    path: string,
    isToEncrypt: bool,
    keyName: string,
    data: seq<Byte>,
    iv: seq<Byte>,
    askOnEncode: bool,
    askOnDecode: bool)

  /** A message the host sends to the device. */
  datatype Outbound =
    | CipherKeyValueReq(request: CipherRequest)
    | PingReq(message: seq<Byte>, buttonProtection: bool, pinProtection: bool, passphraseProtection: bool)
    | PinMatrixAck(pin: seq<Byte>)
    | ButtonAck
    | PassphraseAck(passphrase: seq<Byte>)
    | WordAck(word: seq<Byte>)

  /** The kinds that ask the host for another round before a terminal reply. */
  predicate IsInteractive(k: MessageKind) {
    k.PinMatrixRequest? || k.ButtonRequest? || k.PassphraseRequest? || k.WordRequest?
  }

  /** The interactive kinds that need a secret from the human input agent. */
  predicate NeedsSecret(k: MessageKind) {
    k.PinMatrixRequest? || k.PassphraseRequest? || k.WordRequest?
  }

  /** The payload the liveness probe sends and expects echoed back. */
  const PingPayload: seq<Byte> := "ping"
}
